=== FILE: README.md ===
# EXIM trade dashboard — a Dafny model of its data pipeline

The dashboard is one Streamlit script, `app.py`. It loads one sheet of trade
records and cleans it. A sidebar mask narrows the table to a view. Four
reports are computed from that view, and cumulative growth from the whole
table:

- a buying summary per buyer or HS code;
- cumulative growth of quantity and value, over the whole table whatever the filter;
- average selling price (ASP) per group, ranked;
- a target-customer search by HS code and ASP range;
- competitor mapping: the top ten sellers by value, plus a seller × HS-code value cross-tab.

This project models that pipeline with immutable datatypes and pure functions
over `seq<Record>`, and proves what each step promises.

Modules, in dependency order:

| file | module | contents |
|---|---|---|
| `values.dfy` | `Values` | `Option`, `Result`, day-number dates, Python's code-point string order and ascending label lists |
| `text.dfy` | `Text` | `str.strip()` for header labels, and removing `$` and `,` from VALUE(USD) text |
| `seqs.dfy` | `Seqs` | boolean-mask selection (`df[mask]`) as an order-preserving subsequence |
| `table.dfy` | `Table` | the normalised `Record`, and pandas `sum`/`count`/`mean` skipping NaN; groupby keys and group totals |
| `loader.dfy` | `Loader` | `load_data`: trimmed headers, column lookup, numeric coercion, ASP_COMPUTED |
| `filters.dfy` | `Filters` | the sidebar mask and the filtered view |
| `ranking.dfy` | `Ranking` | `sort_values(ascending=False)` with NaN last, as a sorted permutation |
| `reports.dfy` | `Reports` | the five reports |
| `dashboard.dfy` | `Dashboard` | one run of the page: filter, then every report |

Modelling choices:

- **Numbers.** Quantities, money and prices are exact `real`s. NaN and NaT are `None`.
- **Labels.** Labels are strings, compared in Python's code-point order, which is the order `groupby` sorts keys in.
- **Dates.** Dates are integer day numbers.
- **Library parsers.** The parsers pandas and Python supply are a `Readers` parameter and are not modelled. There are four: `to_numeric` on QUANTITY and UNIT PRICE text, the float conversion of VALUE(USD) text, `to_datetime`, and the text a numeric label cell groups under. The two number readers are separate because they accept different text (app.py:22-26).
- **Loading.** A missing required column is the `KeyError` the script would raise. It is modelled as `Err(MissingColumn(name))`. The reported name is the first column the script touches in the order QUANTITY, VALUE(USD), UNIT PRICE, BUYER, HS CODE, SELLER, INDUSTRY, DATE.
- **Date picker.** The picker's value holds zero, one or two dates:
  - with none, nothing is constrained;
  - with one, `date_range[1]` raises `IndexError`, modelled as `Err(IncompleteDateRange)`;
  - with two, the range is inclusive.
- **HS code choice.** An HS-code selectbox with no options gives `None`, which no row matches.

What the code does at the edges:

- **Missing numbers.** A missing or unreadable QUANTITY is NaN (app.py:22). Sums skip NaN, so a NaN adds nothing to a total. Where UNIT PRICE is missing, a missing quantity or value gives an absent ASP, and a mean leaves it out. A row with a unit price keeps it as its ASP whatever the other two hold (app.py:29-30).
- **ASP fallback.** Every row without a unit price whose quantity is non-zero gets VALUE(USD) / QUANTITY as its ASP, including a row with a negative quantity (app.py:29-32). A zero or missing quantity, or a missing value, gives inf or NaN in pandas. These are modelled as an absent ASP.
- **UNIT PRICE text.** Only VALUE(USD) has `$` and `,` removed (app.py:24). UNIT PRICE is read as it stands (app.py:26).
- **Unreadable VALUE(USD).** VALUE(USD) is converted with `astype(float)`, which raises on unreadable text (app.py:24). That exception is not modelled: see below.

## Model

| member | source | states |
|---|---|---|
| Text.Trim | app.py:19 | a trimmed label is a slice of the original whose cut ends are all whitespace, and neither of its ends is whitespace |
| Text.TrimIdempotent | app.py:19 | trimming a trimmed label changes nothing |
| Loader.CleanHeader | app.py:19 | the header keeps its length and each label is trimmed in place |
| Text.StripCurrency | app.py:23-25 | the cleaned VALUE(USD) text has no `$` or `,`, and holds exactly the other characters of the input |
| Text.StripCurrencyKeepsOrder | app.py:23-25 | the kept characters appear in their original order, and a position is kept exactly when its character is neither `$` nor `,` |
| Text.StripCurrencyIsWhere | app.py:24 | stripping is a character mask: it equals selecting the non-mark characters |
| Text.StripCurrencyAppend | app.py:24 | stripping a concatenation strips each part independently |
| Text.StripCurrencyKeepsClean | app.py:23-25 | text containing neither `$` nor `,` is left unchanged |
| Text.StripCurrencyIdempotent | app.py:23-25 | cleaning twice is cleaning once |
| Loader.StripMarks | app.py:24 | only text cells change, and a text cell's result holds no `$` or `,` |
| Loader.StripMarksIdempotent | app.py:24 | the per-cell replacement is idempotent |
| Loader.ValueOf | app.py:23-25 | VALUE(USD): an empty cell is NaN, a number is kept, and text is converted to a float after its marks are removed |
| Loader.ValueOfPlainCell | app.py:24 | on a VALUE(USD) cell with no `$` or `,` the removal does nothing: the cell converts exactly as the raw cell would |
| Loader.ColumnIndex | app.py:22-26 | a column is found exactly when its label is in the header, at its first occurrence |
| Loader.FindColumns | app.py:22-26 | all columns are found exactly when every name is present; otherwise the error names the first missing one |
| Loader.ReadRecord | app.py:29-32 | a present unit price becomes the ASP and is never overwritten; without one, the ASP is value / quantity for a non-zero quantity with both present, and absent otherwise |
| Loader.ReadRows | app.py:19-34 | one record per data row, in order; each has a consistent ASP, the cleaned amounts found under the trimmed QUANTITY, VALUE(USD) and UNIT PRICE labels, and the BUYER, HS CODE, SELLER, INDUSTRY and DATE cells found under their own trimmed labels, as read |
| Loader.Load | app.py:19-34 | loading fails exactly when a required column is missing after trimming, naming the first one touched; otherwise one record per data row, each with a consistent ASP, the cleaned numeric cells under the amount columns, and the label and date cells under their own columns, as read |
| Loader.RecordFromColumns | app.py:19-34 | with the required columns found in the trimmed header, each field of a row's record comes from the cell under that field's own column |
| Loader.FoundColumnsAt | app.py:22-48 | the positions found for the required columns are, in order, where QUANTITY, VALUE(USD), UNIT PRICE, BUYER, HS CODE, SELLER, INDUSTRY and DATE each first occur |
| Filters.ApplyFilters | app.py:53-71 | without Apply the view is the table; with Apply it fails only on a half-picked date range, and a table row occurs in the view exactly when it is in every non-empty selection and dated inside the inclusive range; the view holds only table rows and is no longer than the table (positions and repeats: Filters.ViewKeepsOrder) |
| Filters.ViewKeepsOrder | app.py:69-71 | the view is the table's rows at strictly increasing positions, and position i is kept exactly when row i passes the mask (every position without Apply), so the order is kept and a repeated row is kept as often as it occurs |
| Filters.FilterIdempotent | app.py:53-69 | applying the same filters to the view changes nothing |
| Filters.NoSelectionKeepsAll | app.py:53-69 | with nothing selected and no date range, Apply keeps the whole table |
| Filters.FiltersCommute | app.py:56-67 | filtering by one selection and then another equals the reverse order |
| Seqs.Where | app.py:69 | `df[mask]` keeps only rows satisfying the mask, and keeps every such row |
| Seqs.KeptIndices | app.py:69 | the kept rows sit at strictly increasing positions, and a position is kept exactly when its row satisfies the mask |
| Seqs.WhereWhere | app.py:56-69 | masking by one predicate and then another is masking by their conjunction |
| Table.Count | app.py:80-82 | the number of present cells is 0 exactly when every cell is NaN |
| Table.Mean | app.py:82 | the mean is undefined exactly when no cell is present; otherwise it times the present count gives the NaN-skipping sum |
| Table.TotalOfAbsent | app.py:80-81 | a column with no present cell sums to 0 |
| Table.TotalAppend | app.py:80-81 | a sum over two concatenated tables is the sum of the two sums |
| Table.TotalSplit | app.py:79-83 | splitting a selection into two disjoint parts splits its sum |
| Table.SortedKeys | app.py:79 | the groupby keys are ascending (so distinct), and a label is a key exactly when some row carries it |
| Table.GroupTotals | app.py:79-81 | each group total is the sum over exactly the rows with that key |
| Table.GroupTotalsAddUp | app.py:79-81 | over distinct keys, the group totals add up to the total over the rows carrying one of those keys |
| Table.KeysCoverKeyed | app.py:79 | the rows whose label is a groupby key are exactly the rows with a non-null label |
| Table.OccursWhere | app.py:125-128 | a label occurs among selected rows exactly when some selected input row carries it |
| Reports.GroupSummary | app.py:79-83 | one row per distinct non-null key, keys ascending; each row holds its group's quantity sum, value sum and NaN-skipping ASP mean |
| Reports.SummaryTotalsAddUp | app.py:79-83 | the Total_Qty column sums to the view's quantity over rows with a non-null key, and likewise Total_Value |
| Reports.CumulativeWindow | app.py:98-99 | the cumulative sum at a later bound is the earlier one plus the rows dated after the earlier bound, up to the later bound inclusive |
| Reports.CumulativeBothWays | app.py:98-101 | the growth numerator is the window total, negated when the end comes before the start |
| Reports.Growth | app.py:98-102 | growth is undefined exactly when the start sum is 0; otherwise it is the window total relative to the start sum, times 100; equal bounds give 0 |
| Reports.AspRows | app.py:113 | one mean-ASP row per distinct non-null key, keys strictly ascending, each the mean of its group |
| Reports.AspRanking | app.py:113 | the ranking has one row per distinct non-null key with its group's mean; groups with a mean come first in non-increasing order, undefined means last |
| Reports.RankedAspRows | app.py:113 | reordering the mean-ASP rows keeps each key exactly once, with its own mean |
| Ranking.InsertRankedDescending | app.py:113 | inserting a row into a descending list keeps it descending |
| Ranking.SortDescending | app.py:113 | the sorted list is descending with NaN last, is a permutation of the input, and has no duplicates when the input has none |
| Ranking.SortedSameRows | app.py:144 | sorting keeps exactly the same rows |
| Reports.TargetRows | app.py:125-127 | exactly the view rows with the chosen HS code and a present ASP in `[asp_min, asp_max]`; empty when `asp_min > asp_max` or no HS code is chosen (positions and repeats: Reports.TargetKeepsOrder) |
| Reports.TargetKeepsOrder | app.py:125-127 | the target rows are the view's rows at strictly increasing positions, and position i is kept exactly when row i passes the target test, so the order is kept and a repeated row is kept as often as it occurs |
| Reports.TargetSummary | app.py:128-132 | buyers ascending; a buyer is listed exactly when it has a target row; each row holds its buyer's aggregates over the target rows |
| Reports.SummaryDistinct | app.py:140-144 | the seller summary has no repeated row |
| Reports.RankedKeysDistinct | app.py:140-144 | a reordered seller summary still lists each seller once |
| Reports.TopOfRanking | app.py:144-147 | the first rows of the ranking are summary rows with distinct keys, in non-increasing value order; an omitted row only when ten are listed, and it ranks no higher than the last one listed |
| Reports.TopCompetitors | app.py:140-147 | at most ten sellers (all of them when there are no more than ten), each a row of the seller summary, listed once, in non-increasing Total_Value order; no omitted seller has a larger total than the last one listed |
| Reports.PairedOccurs | app.py:149 | a seller is a pivot row exactly when some view row has that seller and an HS code, and symmetrically for columns |
| Reports.Pivot | app.py:149 | rows and columns are the paired sellers and HS codes, ascending; the matrix is dense, and each cell is the VALUE(USD) sum over the view rows with that seller and HS code |
| Reports.PivotAbsentPairIsZero | app.py:149 | a seller/HS-code pair with no view row totals 0, not NaN, so its pivot cell reads 0 |
| Reports.PivotRowSum | app.py:149 | a pivot row adds up to the seller's VALUE(USD) over its rows that have an HS code |
| Dashboard.Run | app.py:36-149 | a run fails only on a half-picked date range; the summary, ASP ranking, target search, top sellers and pivot come from the view, and growth from the whole table |
| Dashboard.GrowthIgnoresFilters | app.py:98-102 | two runs with the same start and end periods show the same growth, whatever the filters |
| Dashboard.ApplyNothingChangesNothing | app.py:53-71 | pressing Apply with nothing chosen and no date range shows the same page as not pressing it |

## Left out

- The Streamlit page, its widgets and its formatting (`st.*` calls, metric strings) are not modelled. Widget values are inputs to `Dashboard.Run`. The default values the widgets compute (app.py:43-49, 121-123) populate the UI only.
- `@st.cache_data` is not modelled: memoisation does not change any result.
- Reading the spreadsheet (`pd.read_excel`, sheet name, header row 3) is file I/O. A `Sheet` is the header row and the data rows pandas would hand over.
- The library parsers are not modelled. This covers `pd.to_numeric` on text, the `astype(float)` conversion of text, `pd.to_datetime`, and the text that a numeric label cell groups under. They are the abstract `Readers` parameter.
- The exception `astype(float)` raises on unreadable VALUE(USD) text (app.py:24) is not modelled. The float reader gives no value for such text, so the cell is NaN.
- `pd.to_datetime` raises on DATE text that is not a date (app.py:65, 98-99). The model reads such a cell as NaT, so it fails every date test.
- IEEE float behaviour is not modelled. Arithmetic is exact. Division by zero in the ASP fallback, and NaN operands, give an absent ASP, where pandas gives inf or NaN. The inf that pandas would carry on into means and comparisons does not occur in the model.
- Dates carry no time of day. The script compares timestamps against midnight bounds, which for whole-day dates is the same comparison.
- Duplicate header labels after trimming are not modelled. The model reads the first matching column, where pandas would return a frame.
- Numeric label columns are not ordered as numbers. pandas orders numeric keys numerically. The model groups every label as text and orders it by code point.
- The order `sort_values` gives rows with equal scores is not modelled. pandas makes no promise about it. The model's insertion order is one admissible order, and no contract depends on it.
- CSV export and the download button (app.py:156-161) are serialisation plus UI, and are not modelled.
- Reports.AspRanking: the contracts state the order and contents, not the exact order among equal means.
- Reports.TopCompetitors: states the order and the omitted-seller bound, not which of several tied sellers make the cut.

=== FILE: dashboard.dfy ===
/**
 One run of the dashboard script (app.py lines 36-149) over an already
 loaded table: the sidebar filter produces the view, and the five reports
 are computed from it. Growth alone reads the whole table.
 */
module Dashboard {
  import opened Values
  import opened Table
  import opened Filters
  import opened Reports

  /** The widget values one run reads. */
  datatype Inputs = Inputs(
    apply: bool,
    sel: Selection,
    groupBy: Dim,
    startPeriod: Date,
    endPeriod: Date,
    aspGroup: Dim,
    hsChoice: Option<string>,
    aspMin: real,
    aspMax: real)

  /** The tables and figures one run displays. */
  datatype Dashboard = Dashboard(
    summary: seq<SummaryRow>,
    qtyGrowth: Option<real>,
    valGrowth: Option<real>,
    aspSummary: seq<AspRow>,
    targetSummary: seq<SummaryRow>,
    topCompetitors: seq<SummaryRow>,
    pivot: CrossTab)

  /** The "Group by" radio offers BUYER and HS CODE only. */
  predicate ValidGrouping(d: Dim)
  {
    d == Buyer || d == HsCode
  }

  /**
   The whole page, or the `IndexError` of a half-picked date range. The
   reports other than growth depend on the table only through the view.
   */
  function Run(table: seq<Record>, inp: Inputs): (r: Result<Dashboard, FilterError>)
    requires ValidGrouping(inp.groupBy)
    ensures r.Err? <==> inp.apply && |inp.sel.dateRange| == 1
    ensures r.Ok? ==> forall i :: 0 <= i < |r.value.summary| ==>
              Occurs(table, inp.groupBy, r.value.summary[i].key)
    ensures r.Ok? && !inp.apply ==> r.value.summary == GroupSummary(table, inp.groupBy)
    ensures r.Ok? ==> r.value.qtyGrowth == Growth(table, Quantity, inp.startPeriod, inp.endPeriod)
    ensures r.Ok? ==> r.value.valGrowth == Growth(table, ValueUsd, inp.startPeriod, inp.endPeriod)
    ensures r.Ok? ==> |r.value.topCompetitors| <= TopCount
    ensures r.Ok? ==> var view := ApplyFilters(table, inp.apply, inp.sel).value;
              && r.value.summary == GroupSummary(view, inp.groupBy)
              && r.value.aspSummary == AspRanking(view, inp.aspGroup)
              && r.value.targetSummary == TargetSummary(view, inp.hsChoice, inp.aspMin, inp.aspMax)
              && r.value.topCompetitors == TopCompetitors(view)
              && r.value.pivot == Pivot(view)
  {
    match ApplyFilters(table, inp.apply, inp.sel)
    case Err(e) => Err(e)
    case Ok(view) =>
      var summary := GroupSummary(view, inp.groupBy);
      SummaryKeysInTable(table, view, inp.groupBy);
      Ok(Dashboard(
        summary,
        Growth(table, Quantity, inp.startPeriod, inp.endPeriod),
        Growth(table, ValueUsd, inp.startPeriod, inp.endPeriod),
        AspRanking(view, inp.aspGroup),
        TargetSummary(view, inp.hsChoice, inp.aspMin, inp.aspMax),
        TopCompetitors(view),
        Pivot(view)))
  }

  /**
   Growth ignores the sidebar: two runs over the same table with the same
   start and end periods show the same growth figures, whatever the
   filters and the other widgets say.
   */
  lemma GrowthIgnoresFilters(table: seq<Record>, a: Inputs, b: Inputs)
    requires ValidGrouping(a.groupBy) && ValidGrouping(b.groupBy)
    requires !(a.apply && |a.sel.dateRange| == 1) && !(b.apply && |b.sel.dateRange| == 1)
    requires a.startPeriod == b.startPeriod && a.endPeriod == b.endPeriod
    ensures Run(table, a).value.qtyGrowth == Run(table, b).value.qtyGrowth
    ensures Run(table, a).value.valGrowth == Run(table, b).value.valGrowth
  {
  }

  /**
   Pressing "Apply Filters" with nothing chosen and no date range shows
   exactly the page that not pressing it shows.
   */
  lemma ApplyNothingChangesNothing(table: seq<Record>, inp: Inputs)
    requires ValidGrouping(inp.groupBy)
    ensures Run(table, inp.(apply := true, sel := NoSelection())) == Run(table, inp.(apply := false))
  {
    NoSelectionKeepsAll(table);
  }

  /** Every key of a view's summary is a label of the table the view was cut from. */
  lemma SummaryKeysInTable(table: seq<Record>, view: seq<Record>, d: Dim)
    requires forall i :: 0 <= i < |view| ==> view[i] in table
    ensures forall i :: 0 <= i < |GroupSummary(view, d)| ==> Occurs(table, d, GroupSummary(view, d)[i].key)
  {
    var summary := GroupSummary(view, d);
    forall i | 0 <= i < |summary|
      ensures Occurs(table, d, summary[i].key)
    {
      assert Occurs(view, d, summary[i].key);
      var t :| 0 <= t < |view| && KeyOf(view[t], d) == Some(summary[i].key);
      assert view[t] in table;
    }
  }
}

=== FILE: filters.dfy ===
/**
 The sidebar filter (app.py lines 53-71). Without "Apply Filters" the view
 is the whole table; with it, a mask that starts all-true is AND-ed with a
 membership test for every non-empty multiselect and with an inclusive
 date-range test.
 */
module Filters {
  import opened Values
  import opened Seqs
  import opened Table

  /**
   The sidebar's choices: four multiselects and the value of the
   date-range picker, which holds zero, one or two dates.
   */
  datatype Selection = Selection(
    buyers: set<string>,
    hsCodes: set<string>,
    sellers: set<string>,
    industries: set<string>,
    dateRange: seq<Date>)

  /** Reading the end of a half-picked range (one date) raises `IndexError`. */
  datatype FilterError = IncompleteDateRange

  /** One multiselect's test: an empty choice constrains nothing; a null label is never in a choice. */
  predicate Allows(chosen: set<string>, tag: Option<string>)
  {
    chosen == {} || (tag.Some? && tag.value in chosen)
  }

  /**
   The date-range test, applied once the picker holds both ends: inclusive at
   both ends, and NaT compares false, so a missing date fails the test.
   */
  predicate WithinDates(range: seq<Date>, date: Option<Date>)
  {
    |range| < 2 || (date.Some? && range[0] <= date.value <= range[1])
  }

  /** The combined mask. */
  function Mask(sel: Selection): Record -> bool
  {
    (x: Record) =>
      && Allows(sel.buyers, x.buyer)
      && Allows(sel.hsCodes, x.hsCode)
      && Allows(sel.sellers, x.seller)
      && Allows(sel.industries, x.industry)
      && WithinDates(sel.dateRange, x.date)
  }

  /**
   `df_filtered`. The view is the whole table unless `apply`; otherwise it is
   the table's rows that pass every active test, and it fails only on a
   half-picked date range.
   */
  function ApplyFilters(table: seq<Record>, apply: bool, sel: Selection): (r: Result<seq<Record>, FilterError>)
    ensures !apply ==> r == Ok(table)
    ensures r.Err? <==> apply && |sel.dateRange| == 1
    ensures r.Ok? ==> |r.value| <= |table|
    ensures r.Ok? ==> forall i :: 0 <= i < |r.value| ==> r.value[i] in table
    ensures apply && r.Ok? ==> forall i :: 0 <= i < |table| ==>
              (table[i] in r.value <==>
                 && (sel.buyers != {} ==> table[i].buyer.Some? && table[i].buyer.value in sel.buyers)
                 && (sel.hsCodes != {} ==> table[i].hsCode.Some? && table[i].hsCode.value in sel.hsCodes)
                 && (sel.sellers != {} ==> table[i].seller.Some? && table[i].seller.value in sel.sellers)
                 && (sel.industries != {} ==> table[i].industry.Some? && table[i].industry.value in sel.industries)
                 && (|sel.dateRange| >= 2 ==>
                       table[i].date.Some? && sel.dateRange[0] <= table[i].date.value <= sel.dateRange[1]))
  {
    if !apply then Ok(table)
    else if |sel.dateRange| == 1 then Err(IncompleteDateRange)
    else
      var view := Where(table, Mask(sel));
      assert forall i :: 0 <= i < |table| && table[i] in view ==> Mask(sel)(table[i]) by {
        forall i | 0 <= i < |table| && table[i] in view
          ensures Mask(sel)(table[i])
        {
          var j :| 0 <= j < |view| && view[j] == table[i];
        }
      }
      Ok(view)
  }

  /**
   The view is the table's rows at strictly increasing positions, and
   position i is among them exactly when row i passes the mask (every
   position when the filter is not applied). So the view keeps the table's
   order, and a row that occurs several times is kept as often as it occurs.
   */
  lemma ViewKeepsOrder(table: seq<Record>, apply: bool, sel: Selection)
    requires ApplyFilters(table, apply, sel).Ok?
    ensures exists idx :: && Embeds(ApplyFilters(table, apply, sel).value, table, idx)
                          && forall i :: 0 <= i < |table| ==> (i in idx <==> (!apply || Mask(sel)(table[i])))
  {
    if apply {
      var idx := KeptIndices(table, Mask(sel));
      assert Embeds(ApplyFilters(table, apply, sel).value, table, idx);
    } else {
      var idx: seq<nat> := seq(|table|, i requires 0 <= i < |table| => i);
      assert Embeds(table, table, idx);
      forall i | 0 <= i < |table|
        ensures i in idx
      {
        assert idx[i] == i;
      }
    }
  }

  /** Filtering the view again with the same choices changes nothing. */
  lemma FilterIdempotent(table: seq<Record>, apply: bool, sel: Selection)
    requires ApplyFilters(table, apply, sel).Ok?
    ensures ApplyFilters(ApplyFilters(table, apply, sel).value, apply, sel) == ApplyFilters(table, apply, sel)
  {
    if apply {
      WhereIdempotent(table, Mask(sel));
    }
  }

  /** The selection with nothing chosen and no date range. */
  function NoSelection(): Selection
  {
    Selection({}, {}, {}, {}, [])
  }

  /** Pressing Apply with nothing chosen keeps the whole table. */
  lemma NoSelectionKeepsAll(table: seq<Record>)
    ensures ApplyFilters(table, true, NoSelection()) == Ok(table)
  {
    WhereAllKept(table, Mask(NoSelection()));
  }

  /**
   The tests are a conjunction, so their order does not matter: filtering by
   one selection and then by another gives the same view as the other way
   round.
   */
  lemma FiltersCommute(table: seq<Record>, first: Selection, second: Selection)
    requires |first.dateRange| != 1 && |second.dateRange| != 1
    ensures ApplyFilters(ApplyFilters(table, true, first).value, true, second)
         == ApplyFilters(ApplyFilters(table, true, second).value, true, first)
  {
    var both: Record -> bool := x => Mask(first)(x) && Mask(second)(x);
    WhereWhere(table, Mask(first), Mask(second), both);
    WhereWhere(table, Mask(second), Mask(first), both);
  }
}

=== FILE: loader.dfy ===
/**
 `load_data` (app.py lines 11-34): header labels are trimmed, QUANTITY and
 UNIT PRICE are read as numbers with unreadable cells becoming NaN,
 VALUE(USD) text has every `$` and `,` removed before it is converted to a
 float, ASP_COMPUTED is the unit price, falling back to value / quantity,
 and every other column comes through as read.

 Reading a spreadsheet is outside the model: a `Sheet` is the header row and
 the data rows pandas hands over, and the library parsers are the `Readers`
 given as parameters.
 */
module Loader {
  import opened Values
  import opened Text
  import opened Table

  /** A spreadsheet cell as pandas receives it: empty (NaN), a number, or text. */
  datatype Cell = Empty | Number(x: real) | Str(s: string)

  /** The header row (the third row of the sheet) and the data rows below it. */
  datatype Sheet = Sheet(header: seq<string>, rows: seq<seq<Cell>>)

  /**
   The library conversions the loader relies on, left abstract:
   `number` reads text as `to_numeric` with coercion does (None for text it
   turns into NaN), `float` reads text as a conversion to float does (None
   for text it would reject with an error; the two accept different text),
   `date` reads a DATE cell as a date (None for an empty cell, and also for
   text that is not a date, which pandas would reject with an error), and
   `numeral` is the label a numeric label cell (an HS code, say) groups as.
   */
  datatype Readers = Readers(
    number: string -> Option<real>,
    float: string -> Option<real>,
    date: Cell -> Option<Date>,
    numeral: real -> string)

  /** `df[name]` on a column that is not there raises `KeyError(name)`. */
  datatype LoadError = MissingColumn(name: string)

  /**
   The columns the script indexes, in the order it first touches them:
   `load_data` reads QUANTITY, VALUE(USD), UNIT PRICE; the sidebar then reads
   BUYER, HS CODE, SELLER, INDUSTRY and DATE.
   */
  function RequiredColumns(): seq<string>
  {
    [QuantityLabel, ValueLabel, UnitPriceLabel, BuyerLabel, HsCodeLabel, SellerLabel, IndustryLabel, DateLabel]
  }

  const QuantityLabel: string := "QUANTITY"
  const ValueLabel: string := "VALUE(USD)"
  const UnitPriceLabel: string := "UNIT PRICE"
  const BuyerLabel: string := "BUYER"
  const HsCodeLabel: string := "HS CODE"
  const SellerLabel: string := "SELLER"
  const IndustryLabel: string := "INDUSTRY"
  const DateLabel: string := "DATE"

  /**
   `cols` holds, in the order of `RequiredColumns()`, the position of each
   required column in `header`.
   */
  predicate ColumnsAt(header: seq<string>, cols: seq<nat>)
  {
    && |cols| == 8
    && ColumnIndex(header, QuantityLabel) == Some(cols[0])
    && ColumnIndex(header, ValueLabel) == Some(cols[1])
    && ColumnIndex(header, UnitPriceLabel) == Some(cols[2])
    && ColumnIndex(header, BuyerLabel) == Some(cols[3])
    && ColumnIndex(header, HsCodeLabel) == Some(cols[4])
    && ColumnIndex(header, SellerLabel) == Some(cols[5])
    && ColumnIndex(header, IndustryLabel) == Some(cols[6])
    && ColumnIndex(header, DateLabel) == Some(cols[7])
  }

  /** The positions `FindColumns` reports for the required columns are where each of them is. */
  lemma FoundColumnsAt(header: seq<string>, cols: seq<nat>)
    requires FindColumns(header, RequiredColumns()) == Ok(cols)
    ensures ColumnsAt(header, cols)
  {
    var names := RequiredColumns();
    assert |names| == 8;
    assert names[0] == QuantityLabel && names[1] == ValueLabel && names[2] == UnitPriceLabel;
    assert names[3] == BuyerLabel && names[4] == HsCodeLabel && names[5] == SellerLabel;
    assert names[6] == IndustryLabel && names[7] == DateLabel;
    assert ColumnIndex(header, names[0]) == Some(cols[0]);
    assert ColumnIndex(header, names[1]) == Some(cols[1]);
    assert ColumnIndex(header, names[2]) == Some(cols[2]);
    assert ColumnIndex(header, names[3]) == Some(cols[3]);
    assert ColumnIndex(header, names[4]) == Some(cols[4]);
    assert ColumnIndex(header, names[5]) == Some(cols[5]);
    assert ColumnIndex(header, names[6]) == Some(cols[6]);
    assert ColumnIndex(header, names[7]) == Some(cols[7]);
  }

  /** Every header label with surrounding whitespace removed. */
  function CleanHeader(header: seq<string>): (r: seq<string>)
    ensures |r| == |header|
    ensures forall i :: 0 <= i < |r| ==> r[i] == Trim(header[i])
  {
    seq(|header|, i requires 0 <= i < |header| => Trim(header[i]))
  }

  /** The position of the first column labelled `name`, if any. */
  function ColumnIndex(header: seq<string>, name: string): (r: Option<nat>)
    ensures r.None? <==> name !in header
    ensures r.Some? ==> r.value < |header| && header[r.value] == name
    ensures r.Some? ==> forall j :: 0 <= j < r.value ==> header[j] != name
  {
    if |header| == 0 then None
    else if header[0] == name then Some(0)
    else match ColumnIndex(header[1..], name)
      case None => None
      case Some(i) => Some(i + 1)
  }

  /**
   The positions of `names` in `header`, or the error for the first name
   that has no column.
   */
  function FindColumns(header: seq<string>, names: seq<string>): (r: Result<seq<nat>, LoadError>)
    ensures r.Ok? <==> forall i :: 0 <= i < |names| ==> names[i] in header
    ensures r.Ok? ==> |r.value| == |names|
    ensures r.Ok? ==> forall i :: 0 <= i < |names| ==> ColumnIndex(header, names[i]) == Some(r.value[i])
    ensures r.Err? ==> exists i :: 0 <= i < |names| && r.error == MissingColumn(names[i])
                                 && names[i] !in header && forall j :: 0 <= j < i ==> names[j] in header
  {
    if |names| == 0 then Ok([])
    else match ColumnIndex(header, names[0])
      case None => Err(MissingColumn(names[0]))
      case Some(c) =>
        match FindColumns(header, names[1..])
        case Err(e) =>
          var i :| 0 <= i < |names[1..]| && e == MissingColumn(names[1..][i])
            && names[1..][i] !in header && forall j :: 0 <= j < i ==> names[1..][j] in header;
          assert forall j :: 0 <= j < i + 1 ==> names[j] in header by {
            forall j | 0 < j < i + 1
              ensures names[j] in header
            {
              assert names[j] == names[1..][j - 1];
            }
          }
          Err(e)
        case Ok(cs) =>
          assert forall i :: 0 < i < |names| ==> names[i] == names[1..][i - 1];
          Ok([c] + cs)
  }

  /** The cell of `row` in column `i`; a short row reads as empty. */
  function CellAt(row: seq<Cell>, i: nat): Cell
  {
    if i < |row| then row[i] else Empty
  }

  /** One cell read as a number: empty cells and unreadable text become NaN. */
  function ToNumeric(c: Cell, rd: Readers): Option<real>
  {
    match c
    case Empty => None
    case Number(x) => Some(x)
    case Str(s) => rd.number(s)
  }

  /** One cell converted to a float: empty cells are NaN, unreadable text has no value. */
  function ToFloat(c: Cell, rd: Readers): Option<real>
  {
    match c
    case Empty => None
    case Number(x) => Some(x)
    case Str(s) => rd.float(s)
  }

  /** The `$` and `,` removal on one cell: only text cells change. */
  function StripMarks(c: Cell): (r: Cell)
    ensures r.Str? <==> c.Str?
    ensures !c.Str? ==> r == c
    ensures r.Str? ==> forall i :: 0 <= i < |r.s| ==> !IsCurrencyMark(r.s[i])
  {
    match c
    case Str(s) => Str(StripCurrency(s))
    case _ => c
  }

  lemma StripMarksIdempotent(c: Cell)
    ensures StripMarks(StripMarks(c)) == StripMarks(c)
  {
    if c.Str? {
      StripCurrencyIdempotent(c.s);
    }
  }

  /**
   VALUE(USD) as loaded: the cell with its marks removed, converted to a
   float.
   */
  function ValueOf(c: Cell, rd: Readers): (r: Option<real>)
    ensures c.Empty? ==> r.None?
    ensures c.Number? ==> r == Some(c.x)
    ensures c.Str? ==> r == rd.float(StripCurrency(c.s))
  {
    ToFloat(StripMarks(c), rd)
  }

  /**
   On a cell without `$` or `,` the removal does nothing: the cell converts
   exactly as the raw cell would.
   */
  lemma ValueOfPlainCell(c: Cell, rd: Readers)
    requires c.Str? ==> forall i :: 0 <= i < |c.s| ==> !IsCurrencyMark(c.s[i])
    ensures ValueOf(c, rd) == ToFloat(c, rd)
  {
    if c.Str? {
      StripCurrencyKeepsClean(c.s);
    }
  }

  /** A label cell: empty is a null label, a number groups by its numeral. */
  function LabelOf(c: Cell, rd: Readers): Option<string>
  {
    match c
    case Empty => None
    case Number(x) => Some(rd.numeral(x))
    case Str(s) => Some(s)
  }

  /**
   ASP_COMPUTED for one row (app.py lines 29-32): start from the unit price;
   where that is NaN, overwrite with value / quantity. In pandas a zero
   quantity gives inf or NaN there and a NaN operand gives NaN; all of these
   are modelled as an absent ASP.
   */
  function DeriveAsp(unitPrice: Option<real>, quantity: Option<real>, value: Option<real>): Option<real>
  {
    if unitPrice.Some? then unitPrice
    else if quantity.Some? && value.Some? && quantity.value != 0.0 then Some(value.value / quantity.value)
    else None
  }

  /**
   One record from one data row; `cols` holds the positions of
   `RequiredColumns()` in the trimmed header.
   */
  function ReadRecord(row: seq<Cell>, cols: seq<nat>, rd: Readers): (r: Record)
    requires |cols| == 8
    ensures AspConsistent(r)
    ensures r.unitPrice.Some? ==> r.asp == r.unitPrice
  {
    var quantity := ToNumeric(CellAt(row, cols[0]), rd);
    var value := ValueOf(CellAt(row, cols[1]), rd);
    var unitPrice := ToNumeric(CellAt(row, cols[2]), rd);
    Record(
      date := rd.date(CellAt(row, cols[7])),
      buyer := LabelOf(CellAt(row, cols[3]), rd),
      hsCode := LabelOf(CellAt(row, cols[4]), rd),
      seller := LabelOf(CellAt(row, cols[5]), rd),
      industry := LabelOf(CellAt(row, cols[6]), rd),
      quantity := quantity,
      value := value,
      unitPrice := unitPrice,
      asp := DeriveAsp(unitPrice, quantity, value))
  }

  /** The cell of data row `i` under the (trimmed) column `name`. */
  function ColumnCell(sheet: Sheet, i: nat, name: string): Cell
    requires i < |sheet.rows|
  {
    match ColumnIndex(CleanHeader(sheet.header), name)
    case Some(c) => CellAt(sheet.rows[i], c)
    case None => Empty
  }

  /**
   Record `r` is data row `i` of `sheet` as loaded: its amounts are the
   cleaned numeric cells under QUANTITY, VALUE(USD) and UNIT PRICE, and its
   labels and date are the cells under BUYER, HS CODE, SELLER, INDUSTRY and
   DATE, as read.
   */
  predicate ReadFrom(sheet: Sheet, i: nat, r: Record, rd: Readers)
    requires i < |sheet.rows|
  {
    && r.quantity == ToNumeric(ColumnCell(sheet, i, QuantityLabel), rd)
    && r.value == ToFloat(StripMarks(ColumnCell(sheet, i, ValueLabel)), rd)
    && r.unitPrice == ToNumeric(ColumnCell(sheet, i, UnitPriceLabel), rd)
    && r.buyer == LabelOf(ColumnCell(sheet, i, BuyerLabel), rd)
    && r.hsCode == LabelOf(ColumnCell(sheet, i, HsCodeLabel), rd)
    && r.seller == LabelOf(ColumnCell(sheet, i, SellerLabel), rd)
    && r.industry == LabelOf(ColumnCell(sheet, i, IndustryLabel), rd)
    && r.date == rd.date(ColumnCell(sheet, i, DateLabel))
  }

  /**
   The normalised table, or the `KeyError` of the first required column
   that no trimmed header label matches.
   */
  function Load(sheet: Sheet, rd: Readers): (r: Result<seq<Record>, LoadError>)
    ensures r.Err? <==> exists i :: 0 <= i < |RequiredColumns()| && RequiredColumns()[i] !in CleanHeader(sheet.header)
    ensures r.Err? ==> exists i :: 0 <= i < |RequiredColumns()| && r.error == MissingColumn(RequiredColumns()[i])
                                 && RequiredColumns()[i] !in CleanHeader(sheet.header)
                                 && forall j :: 0 <= j < i ==> RequiredColumns()[j] in CleanHeader(sheet.header)
    ensures r.Ok? ==> |r.value| == |sheet.rows|
    ensures r.Ok? ==> forall i :: 0 <= i < |r.value| ==> AspConsistent(r.value[i])
    ensures r.Ok? ==> forall i :: 0 <= i < |r.value| ==> ReadFrom(sheet, i, r.value[i], rd)
  {
    match FindColumns(CleanHeader(sheet.header), RequiredColumns())
    case Err(e) =>
      Err(e)
    case Ok(cols) =>
      FoundColumnsAt(CleanHeader(sheet.header), cols);
      Ok(ReadRows(sheet, cols, rd))
  }

  /**
   One record per data row, in order, each with a consistent ASP and read
   from its row's cells under the trimmed required labels.
   */
  function ReadRows(sheet: Sheet, cols: seq<nat>, rd: Readers): (rows: seq<Record>)
    requires ColumnsAt(CleanHeader(sheet.header), cols)
    ensures |rows| == |sheet.rows|
    ensures forall i :: 0 <= i < |rows| ==> AspConsistent(rows[i])
    ensures forall i :: 0 <= i < |rows| ==> ReadFrom(sheet, i, rows[i], rd)
  {
    RowsFromColumns(sheet, cols, rd);
    RowsOf(sheet, cols, rd)
  }

  /** The record of every data row, in order. */
  function RowsOf(sheet: Sheet, cols: seq<nat>, rd: Readers): seq<Record>
    requires |cols| == 8
  {
    seq(|sheet.rows|, i requires 0 <= i < |sheet.rows| => ReadRecord(sheet.rows[i], cols, rd))
  }

  /** Every data row's record is read from that row's cells and has a consistent ASP. */
  lemma RowsFromColumns(sheet: Sheet, cols: seq<nat>, rd: Readers)
    requires ColumnsAt(CleanHeader(sheet.header), cols)
    ensures |RowsOf(sheet, cols, rd)| == |sheet.rows|
    ensures forall i :: 0 <= i < |sheet.rows| ==> AspConsistent(RowsOf(sheet, cols, rd)[i])
    ensures forall i :: 0 <= i < |sheet.rows| ==> ReadFrom(sheet, i, RowsOf(sheet, cols, rd)[i], rd)
  {
    var rows := RowsOf(sheet, cols, rd);
    forall i | 0 <= i < |sheet.rows|
      ensures AspConsistent(rows[i]) && ReadFrom(sheet, i, rows[i], rd)
    {
      RecordFromColumns(sheet, i, cols, rd);
    }
  }

  /** The record of data row `i` takes each field from the cell under that field's column. */
  lemma RecordFromColumns(sheet: Sheet, i: nat, cols: seq<nat>, rd: Readers)
    requires i < |sheet.rows|
    requires ColumnsAt(CleanHeader(sheet.header), cols)
    ensures ReadFrom(sheet, i, ReadRecord(sheet.rows[i], cols, rd), rd)
  {
    ColumnCellAt(sheet, i, QuantityLabel, cols[0]);
    ColumnCellAt(sheet, i, ValueLabel, cols[1]);
    ColumnCellAt(sheet, i, UnitPriceLabel, cols[2]);
    ColumnCellAt(sheet, i, BuyerLabel, cols[3]);
    ColumnCellAt(sheet, i, HsCodeLabel, cols[4]);
    ColumnCellAt(sheet, i, SellerLabel, cols[5]);
    ColumnCellAt(sheet, i, IndustryLabel, cols[6]);
    ColumnCellAt(sheet, i, DateLabel, cols[7]);
  }

  /** The cell under a column found in the trimmed header is the row's cell at that position. */
  lemma ColumnCellAt(sheet: Sheet, i: nat, name: string, c: nat)
    requires i < |sheet.rows|
    requires ColumnIndex(CleanHeader(sheet.header), name) == Some(c)
    ensures ColumnCell(sheet, i, name) == CellAt(sheet.rows[i], c)
  {
  }
}

=== FILE: ranking.dfy ===
/**
 `sort_values(col, ascending=False)` on a report table: rows ordered by a
 score from largest to smallest, rows whose score is NaN placed last
 (pandas' default `na_position="last"`). The order among equal scores is not
 promised.
 */
module Ranking {
  import opened Values

  /** `a` may stand before `b` in a descending order with NaN last. */
  predicate RanksAbove<T>(a: T, b: T, score: T -> Option<real>)
  {
    score(b).None? || (score(a).Some? && score(a).value >= score(b).value)
  }

  predicate Descending<T>(s: seq<T>, score: T -> Option<real>)
  {
    forall i, j :: 0 <= i < j < |s| ==> RanksAbove(s[i], s[j], score)
  }

  function InsertRanked<T(==)>(x: T, s: seq<T>, score: T -> Option<real>): (r: seq<T>)
    ensures multiset(r) == multiset(s) + multiset{x}
  {
    if |s| == 0 then [x]
    else if RanksAbove(x, s[0], score) then [x] + s
    else
      assert s == [s[0]] + s[1..];
      [s[0]] + InsertRanked(x, s[1..], score)
  }

  /** Inserting into a descending sequence keeps it descending. */
  lemma {:induction false} InsertRankedDescending<T>(x: T, s: seq<T>, score: T -> Option<real>)
    requires Descending(s, score)
    ensures Descending(InsertRanked(x, s, score), score)
  {
    if |s| > 0 && !RanksAbove(x, s[0], score) {
      var rest := InsertRanked(x, s[1..], score);
      InsertRankedDescending(x, s[1..], score);
      forall y | y in rest
        ensures RanksAbove(s[0], y, score)
      {
        assert y in multiset(rest);
        if y != x {
          assert y in s[1..];
        }
      }
    }
  }

  /** Inserting a new row into a sequence without duplicates creates none. */
  lemma {:induction false} InsertRankedDistinct<T>(x: T, s: seq<T>, score: T -> Option<real>)
    ensures Distinct(s) && x !in s ==> Distinct(InsertRanked(x, s, score))
  {
    if Distinct(s) && x !in s && |s| > 0 && !RanksAbove(x, s[0], score) {
      var rest := InsertRanked(x, s[1..], score);
      InsertRankedDistinct(x, s[1..], score);
      assert s[0] !in multiset(rest) by {
        assert s[0] != x;
        assert s[0] !in s[1..];
      }
    }
  }

  /**
   The rows of `s` rearranged into descending score order, NaN scores last:
   a permutation of `s`, without duplicates when `s` has none.
   */
  function SortDescending<T(==)>(s: seq<T>, score: T -> Option<real>): (r: seq<T>)
    ensures Descending(r, score)
    ensures multiset(r) == multiset(s)
    ensures |r| == |s|
    ensures Distinct(s) ==> Distinct(r)
  {
    if |s| == 0 then []
    else
      var rest := SortDescending(s[1..], score);
      var r := InsertRanked(s[0], rest, score);
      SortStep(s, score, rest, r);
      r
  }

  /** One step of `SortDescending`: inserting the first row into the sorted rest. */
  lemma SortStep<T>(s: seq<T>, score: T -> Option<real>, rest: seq<T>, r: seq<T>)
    requires |s| > 0
    requires Descending(rest, score) && multiset(rest) == multiset(s[1..])
    requires Distinct(s[1..]) ==> Distinct(rest)
    requires r == InsertRanked(s[0], rest, score)
    ensures Descending(r, score)
    ensures multiset(r) == multiset(s)
    ensures |r| == |s|
    ensures Distinct(s) ==> Distinct(r)
  {
    assert s == [s[0]] + s[1..];
    InsertRankedDescending(s[0], rest, score);
    InsertRankedDistinct(s[0], rest, score);
    assert Distinct(s) ==> s[0] !in multiset(s[1..]);
    assert |r| == |multiset(r)|;
  }

  /** A sorted permutation has the same rows: each row of the result is a row of the input and back. */
  lemma SortedSameRows<T>(s: seq<T>, score: T -> Option<real>)
    ensures forall x :: x in SortDescending(s, score) <==> x in s
  {
    var r := SortDescending(s, score);
    forall x
      ensures x in r <==> x in s
    {
      assert x in r <==> x in multiset(r);
      assert x in s <==> x in multiset(s);
    }
  }
}

=== FILE: reports.dfy ===
/**
 The five reports of the dashboard (app.py lines 79-149): group summary,
 cumulative growth, ASP ranking, target-customer search, and competitor
 mapping (top sellers plus the seller x HS-code value cross-tab).
 */
module Reports {
  import opened Values
  import opened Seqs
  import opened Table
  import opened Ranking

  /** One group of the summary: its label, the QUANTITY and VALUE(USD) sums, and the mean ASP. */
  datatype SummaryRow = SummaryRow(key: string, totalQty: real, totalValue: real, avgAsp: Option<real>)

  /** The rows of one groupby group. */
  function Group(view: seq<Record>, d: Dim, k: string): seq<Record>
  {
    Where(view, HasKey(d, k))
  }

  /** The three aggregates of one group. */
  function Summarize(view: seq<Record>, d: Dim, k: string): SummaryRow
  {
    var g := Group(view, d, k);
    SummaryRow(k, Total(g, Quantity), Total(g, ValueUsd), Mean(g, AspComputed))
  }

  /**
   The group summary on `d` (app.py lines 79-83, and the same aggregation at
   128-132 and 140-144): one row per distinct non-null label, labels
   ascending, each row the aggregates of its group.
   */
  function GroupSummary(view: seq<Record>, d: Dim): (r: seq<SummaryRow>)
    ensures forall i, j :: 0 <= i < j < |r| ==> StrLt(r[i].key, r[j].key)
    ensures forall k :: (exists i :: 0 <= i < |r| && r[i].key == k) <==> Occurs(view, d, k)
    ensures forall i :: 0 <= i < |r| ==> r[i] == Summarize(view, d, r[i].key)
  {
    var ks := SortedKeys(view, d);
    var r := seq(|ks|, i requires 0 <= i < |ks| => Summarize(view, d, ks[i]));
    assert forall k :: (exists i :: 0 <= i < |r| && r[i].key == k) <==> k in ks by {
      forall k
        ensures (exists i :: 0 <= i < |r| && r[i].key == k) <==> k in ks
      {
        if k in ks {
          var i :| 0 <= i < |ks| && ks[i] == k;
          assert r[i].key == k;
        }
      }
    }
    r
  }

  function TotalQtys(rows: seq<SummaryRow>): (r: seq<real>)
    ensures |r| == |rows| && forall i :: 0 <= i < |rows| ==> r[i] == rows[i].totalQty
  {
    seq(|rows|, i requires 0 <= i < |rows| => rows[i].totalQty)
  }

  function TotalValues(rows: seq<SummaryRow>): (r: seq<real>)
    ensures |r| == |rows| && forall i :: 0 <= i < |rows| ==> r[i] == rows[i].totalValue
  {
    seq(|rows|, i requires 0 <= i < |rows| => rows[i].totalValue)
  }

  /**
   The group summary accounts for every keyed row once: its Total_Qty
   column sums to the view's quantity over rows with a non-null label, and
   likewise Total_Value (missing amounts counting 0).
   */
  lemma SummaryTotalsAddUp(view: seq<Record>, d: Dim)
    ensures Sum(TotalQtys(GroupSummary(view, d))) == Total(Where(view, Keyed(d)), Quantity)
    ensures Sum(TotalValues(GroupSummary(view, d))) == Total(Where(view, Keyed(d)), ValueUsd)
  {
    var ks := SortedKeys(view, d);
    AscendingIsDistinct(ks);
    assert TotalQtys(GroupSummary(view, d)) == GroupTotals(view, d, ks, Quantity);
    assert TotalValues(GroupSummary(view, d)) == GroupTotals(view, d, ks, ValueUsd);
    GroupTotalsAddUp(view, d, ks, Quantity);
    GroupTotalsAddUp(view, d, ks, ValueUsd);
    KeysCoverKeyed(view, d);
  }

  // ---------------------------------------------------------------------
  // Growth (app.py lines 98-102), always on the unfiltered table.
  // ---------------------------------------------------------------------

  /** Dated on or before `bound`; a missing date (NaT) compares false. */
  function UpTo(bound: Date): Record -> bool
  {
    (x: Record) => x.date.Some? && x.date.value <= bound
  }

  /** Dated after `lo` and on or before `hi`. */
  function Between(lo: Date, hi: Date): Record -> bool
  {
    (x: Record) => x.date.Some? && lo < x.date.value <= hi
  }

  /** The cumulative-to-date total: the sum of column `c` over the rows dated on or before `bound`. */
  function CumulativeTotal(table: seq<Record>, c: Column, bound: Date): real
  {
    Total(Where(table, UpTo(bound)), c)
  }

  /** The cumulative total at a later bound is the earlier one plus the rows dated in between. */
  lemma CumulativeWindow(table: seq<Record>, c: Column, start: Date, end: Date)
    requires start <= end
    ensures CumulativeTotal(table, c, end) == CumulativeTotal(table, c, start) + Total(Where(table, Between(start, end)), c)
  {
    TotalSplit(table, c, UpTo(end), UpTo(start), Between(start, end));
  }

  lemma CumulativeBothWays(table: seq<Record>, c: Column, start: Date, end: Date)
    ensures start <= end ==>
              CumulativeTotal(table, c, end) - CumulativeTotal(table, c, start) == Total(Where(table, Between(start, end)), c)
    ensures end < start ==>
              CumulativeTotal(table, c, end) - CumulativeTotal(table, c, start) == -Total(Where(table, Between(end, start)), c)
  {
    if start <= end {
      CumulativeWindow(table, c, start, end);
    } else {
      CumulativeWindow(table, c, end, start);
    }
  }

  /** A change relative to a base, in percent. */
  function Percent(change: real, base: real): real
    requires base != 0.0
  {
    change / base * 100.0
  }

  /**
   The percentage change from the start-period cumulative total to the
   end-period one, for QUANTITY or VALUE(USD); NaN when the start total is
   zero. Undefined exactly when the start sum is zero;
   otherwise the change is the total of the rows dated after `start` up to
   `end` (negated when `end` comes first), relative to the start sum.
   */
  function Growth(table: seq<Record>, c: Column, start: Date, end: Date): (g: Option<real>)
    ensures g.None? <==> CumulativeTotal(table, c, start) == 0.0
    ensures start <= end && g.Some? ==>
              g.value == Percent(Total(Where(table, Between(start, end)), c), CumulativeTotal(table, c, start))
    ensures end < start && g.Some? ==>
              g.value == Percent(-Total(Where(table, Between(end, start)), c), CumulativeTotal(table, c, start))
    ensures start == end ==> g.None? || g.value == 0.0
  {
    var s := CumulativeTotal(table, c, start);
    var e := CumulativeTotal(table, c, end);
    CumulativeBothWays(table, c, start, end);
    if s != 0.0 then Some(Percent(e - s, s)) else None
  }

  // ---------------------------------------------------------------------
  // ASP ranking (app.py line 113).
  // ---------------------------------------------------------------------

  /** One group of the ASP ranking: its label and the mean of ASP_COMPUTED over it. */
  datatype AspRow = AspRow(key: string, meanAsp: Option<real>)

  function MeanAspScore(r: AspRow): Option<real>
  {
    r.meanAsp
  }

  function AspRowOf(view: seq<Record>, d: Dim, k: string): AspRow
  {
    AspRow(k, Mean(Group(view, d, k), AspComputed))
  }

  /**
   Mean ASP per group, sorted descending: one row per distinct non-null
   label, groups with a mean first in non-increasing order, groups without
   one last.
   */
  function AspRanking(view: seq<Record>, d: Dim): (r: seq<AspRow>)
    ensures forall k :: (exists i :: 0 <= i < |r| && r[i].key == k) <==> Occurs(view, d, k)
    ensures forall i, j :: 0 <= i < j < |r| ==> r[i].key != r[j].key
    ensures forall i :: 0 <= i < |r| ==> r[i] == AspRowOf(view, d, r[i].key)
    ensures forall i, j :: 0 <= i < j < |r| && r[j].meanAsp.Some? ==>
              r[i].meanAsp.Some? && r[i].meanAsp.value >= r[j].meanAsp.value
  {
    var rows := AspRows(view, d);
    var r := SortDescending(rows, MeanAspScore);
    SortedSameRows(rows, MeanAspScore);
    RankedAspRows(view, d, rows, r);
    r
  }

  /** The mean ASP per group before sorting: one row per key, keys ascending. */
  function AspRows(view: seq<Record>, d: Dim): (rows: seq<AspRow>)
    ensures forall k :: (exists i :: 0 <= i < |rows| && rows[i].key == k) <==> Occurs(view, d, k)
    ensures forall i :: 0 <= i < |rows| ==> rows[i] == AspRowOf(view, d, rows[i].key)
    ensures forall i, j :: 0 <= i < j < |rows| ==> StrLt(rows[i].key, rows[j].key)
    ensures Distinct(rows)
  {
    var ks := SortedKeys(view, d);
    AscendingIsDistinct(ks);
    var rows := seq(|ks|, i requires 0 <= i < |ks| => AspRowOf(view, d, ks[i]));
    assert forall k :: (exists i :: 0 <= i < |rows| && rows[i].key == k) <==> k in ks by {
      forall k | k in ks
        ensures exists i :: 0 <= i < |rows| && rows[i].key == k
      {
        var i :| 0 <= i < |ks| && ks[i] == k;
        assert rows[i].key == k;
      }
    }
    rows
  }

  /** Rearranging the rows keeps the keys, each once, and each row's mean. */
  lemma RankedAspRows(view: seq<Record>, d: Dim, rows: seq<AspRow>, r: seq<AspRow>)
    requires forall k :: (exists i :: 0 <= i < |rows| && rows[i].key == k) <==> Occurs(view, d, k)
    requires forall i :: 0 <= i < |rows| ==> rows[i] == AspRowOf(view, d, rows[i].key)
    requires forall x :: x in r <==> x in rows
    requires Distinct(r)
    ensures forall k :: (exists i :: 0 <= i < |r| && r[i].key == k) <==> Occurs(view, d, k)
    ensures forall i :: 0 <= i < |r| ==> r[i] == AspRowOf(view, d, r[i].key)
    ensures forall i, j :: 0 <= i < j < |r| ==> r[i].key != r[j].key
  {
    forall i | 0 <= i < |r|
      ensures r[i] == AspRowOf(view, d, r[i].key)
    {
      assert r[i] in rows;
    }
    forall k
      ensures (exists i :: 0 <= i < |r| && r[i].key == k) <==> Occurs(view, d, k)
    {
      if exists i :: 0 <= i < |r| && r[i].key == k {
        var i :| 0 <= i < |r| && r[i].key == k;
        assert r[i] in rows;
      }
      if Occurs(view, d, k) {
        var i :| 0 <= i < |rows| && rows[i].key == k;
        assert rows[i] in r;
      }
    }
  }

  // ---------------------------------------------------------------------
  // Target customers (app.py lines 125-132).
  // ---------------------------------------------------------------------

  /**
   The target test: the chosen HS code and an ASP from `lo` to `hi`
   inclusive. A NaN ASP compares false,
   and with no HS code to choose from the selectbox yields None, which no
   row equals.
   */
  function IsTarget(hsChoice: Option<string>, lo: real, hi: real): Record -> bool
  {
    (x: Record) => hsChoice.Some? && x.hsCode == hsChoice && x.asp.Some? && lo <= x.asp.value <= hi
  }

  /**
   The target rows: exactly the rows of the view with the chosen HS code and an
   ASP inside `[lo, hi]`, in view order; empty when `lo > hi`.
   */
  function TargetRows(view: seq<Record>, hsChoice: Option<string>, lo: real, hi: real): (r: seq<Record>)
    ensures forall i :: 0 <= i < |r| ==>
              r[i] in view && r[i].hsCode == hsChoice && hsChoice.Some?
              && r[i].asp.Some? && lo <= r[i].asp.value <= hi
    ensures forall i :: (0 <= i < |view| && hsChoice.Some? && view[i].hsCode == hsChoice
                         && view[i].asp.Some? && lo <= view[i].asp.value <= hi) ==> view[i] in r
    ensures lo > hi ==> r == []
    ensures hsChoice.None? ==> r == []
  {
    var r := Where(view, IsTarget(hsChoice, lo, hi));
    assert lo > hi || hsChoice.None? ==> r == [] by {
      if lo > hi || hsChoice.None? {
        WhereNoneKept(view, IsTarget(hsChoice, lo, hi));
      }
    }
    r
  }

  /**
   The target rows are the view's rows at strictly increasing positions, and
   position i is among them exactly when row i passes the target test. So
   they keep the view's order, and a row that occurs several times is kept
   as often as it occurs.
   */
  lemma TargetKeepsOrder(view: seq<Record>, hsChoice: Option<string>, lo: real, hi: real)
    ensures exists idx :: && Embeds(TargetRows(view, hsChoice, lo, hi), view, idx)
                          && forall i :: 0 <= i < |view| ==> (i in idx <==> IsTarget(hsChoice, lo, hi)(view[i]))
  {
    var idx := KeptIndices(view, IsTarget(hsChoice, lo, hi));
    assert Embeds(TargetRows(view, hsChoice, lo, hi), view, idx);
  }

  /**
   The target summary: the target rows grouped by buyer with the same three
   aggregates; every buyer listed has a target row, and every buyer of a
   target row is listed.
   */
  function TargetSummary(view: seq<Record>, hsChoice: Option<string>, lo: real, hi: real): (r: seq<SummaryRow>)
    ensures forall i, j :: 0 <= i < j < |r| ==> StrLt(r[i].key, r[j].key)
    ensures forall k :: (exists i :: 0 <= i < |r| && r[i].key == k) <==>
              exists t :: 0 <= t < |view| && view[t].buyer == Some(k) && IsTarget(hsChoice, lo, hi)(view[t])
    ensures forall i :: 0 <= i < |r| ==> r[i] == Summarize(TargetRows(view, hsChoice, lo, hi), Buyer, r[i].key)
  {
    var rows := TargetRows(view, hsChoice, lo, hi);
    forall k
      ensures Occurs(rows, Buyer, k) <==>
              exists t :: 0 <= t < |view| && view[t].buyer == Some(k) && IsTarget(hsChoice, lo, hi)(view[t])
    {
      OccursWhere(view, IsTarget(hsChoice, lo, hi), Buyer, k);
    }
    GroupSummary(rows, Buyer)
  }

  // ---------------------------------------------------------------------
  // Competitor mapping (app.py lines 140-149).
  // ---------------------------------------------------------------------

  function TotalValueScore(r: SummaryRow): Option<real>
  {
    Some(r.totalValue)
  }

  /** How many sellers the competitor table lists. */
  const TopCount: nat := 10

  /**
   The seller summary sorted by Total_Value, descending, cut to its first
   ten rows: at most ten sellers in non-increasing total order, every
   seller listed when there are at most ten, and no omitted seller with a
   larger total than the last one listed.
   */
  function TopCompetitors(view: seq<Record>): (r: seq<SummaryRow>)
    ensures |r| == if |GroupSummary(view, Seller)| < TopCount then |GroupSummary(view, Seller)| else TopCount
    ensures forall i :: 0 <= i < |r| ==> r[i] in GroupSummary(view, Seller)
    ensures forall i, j :: 0 <= i < j < |r| ==> r[i].key != r[j].key
    ensures forall i, j :: 0 <= i < j < |r| ==> r[i].totalValue >= r[j].totalValue
    ensures forall s :: s in GroupSummary(view, Seller) && s !in r ==>
              |r| == TopCount && s.totalValue <= r[|r| - 1].totalValue
  {
    var summary := GroupSummary(view, Seller);
    SummaryDistinct(view, Seller);
    var ranked := SortDescending(summary, TotalValueScore);
    SortedSameRows(summary, TotalValueScore);
    RankedKeysDistinct(view, ranked);
    var n := if |ranked| < TopCount then |ranked| else TopCount;
    TopOfRanking(summary, ranked, n);
    ranked[..n]
  }

  /** The summary of a view has one row per key, so no two of its rows are equal. */
  lemma SummaryDistinct(view: seq<Record>, d: Dim)
    ensures Distinct(GroupSummary(view, d))
  {
    var summary := GroupSummary(view, d);
    forall i, j | 0 <= i < j < |summary|
      ensures summary[i] != summary[j]
    {
      StrLtIrreflexive(summary[i].key);
    }
  }

  /** The rows of the ranked seller summary are rows of the summary, with distinct keys. */
  lemma RankedKeysDistinct(view: seq<Record>, ranked: seq<SummaryRow>)
    requires forall x :: x in ranked ==> x in GroupSummary(view, Seller)
    requires Distinct(ranked)
    ensures forall i, j :: 0 <= i < j < |ranked| ==> ranked[i].key != ranked[j].key
  {
    forall i, j | 0 <= i < j < |ranked|
      ensures ranked[i].key != ranked[j].key
    {
      var summary := GroupSummary(view, Seller);
      assert ranked[i] in summary && ranked[j] in summary;
      var a :| 0 <= a < |summary| && summary[a] == ranked[i];
      var b :| 0 <= b < |summary| && summary[b] == ranked[j];
      assert ranked[i] == Summarize(view, Seller, ranked[i].key);
      assert ranked[j] == Summarize(view, Seller, ranked[j].key);
    }
  }

  /**
   The first `n` rows of a descending ranking of `summary` (n the smaller of
   ten and the number of rows): rows of the summary with distinct keys, in
   non-increasing order, and every row left out ranks no higher than the last
   one kept.
   */
  lemma TopOfRanking(summary: seq<SummaryRow>, ranked: seq<SummaryRow>, n: nat)
    requires Descending(ranked, TotalValueScore)
    requires |ranked| == |summary|
    requires forall x :: x in ranked <==> x in summary
    requires forall i, j :: 0 <= i < j < |ranked| ==> ranked[i].key != ranked[j].key
    requires n == if |ranked| < TopCount then |ranked| else TopCount
    ensures forall i :: 0 <= i < n ==> ranked[..n][i] in summary
    ensures forall i, j :: 0 <= i < j < n ==> ranked[..n][i].key != ranked[..n][j].key
    ensures forall i, j :: 0 <= i < j < n ==> ranked[..n][i].totalValue >= ranked[..n][j].totalValue
    ensures forall s :: s in summary && s !in ranked[..n] ==>
              n == TopCount && s.totalValue <= ranked[..n][n - 1].totalValue
  {
    var top := ranked[..n];
    assert forall i :: 0 <= i < n ==> top[i] == ranked[i];
    forall i | 0 <= i < n
      ensures top[i] in summary
    {
      assert ranked[i] in ranked;
    }
    forall i, j | 0 <= i < j < n
      ensures top[i].totalValue >= top[j].totalValue
    {
      assert RanksAbove(ranked[i], ranked[j], TotalValueScore);
    }
    forall s | s in summary && s !in top
      ensures n == TopCount && s.totalValue <= top[n - 1].totalValue
    {
      var j :| 0 <= j < |ranked| && ranked[j] == s;
      assert j >= n;
      assert RanksAbove(ranked[n - 1], ranked[j], TotalValueScore);
    }
  }

  /**
   The seller by HS-code table of VALUE(USD) sums: the sellers and the HS
   codes that occur together in some row, each ascending, and a dense matrix
   of value totals, with 0 where a pair has no row.
   */
  datatype CrossTab = CrossTab(sellers: seq<string>, hsCodes: seq<string>, cells: seq<seq<real>>)

  /** Rows with both a seller and an HS code: the rows the pivot groups. */
  function Paired(): Record -> bool
  {
    (x: Record) => x.seller.Some? && x.hsCode.Some?
  }

  /** The sum of VALUE(USD) over the view rows with this seller and this HS code. */
  function PairTotal(view: seq<Record>, seller: string, code: string): real
  {
    Total(Where(Group(view, Seller, seller), HasKey(HsCode, code)), ValueUsd)
  }

  function Pivot(view: seq<Record>): (t: CrossTab)
    ensures Ascending(t.sellers) && Ascending(t.hsCodes)
    ensures forall s :: s in t.sellers <==>
              exists i :: 0 <= i < |view| && view[i].seller == Some(s) && view[i].hsCode.Some?
    ensures forall c :: c in t.hsCodes <==>
              exists i :: 0 <= i < |view| && view[i].hsCode == Some(c) && view[i].seller.Some?
    ensures |t.cells| == |t.sellers|
    ensures forall i :: 0 <= i < |t.sellers| ==> |t.cells[i]| == |t.hsCodes|
    ensures forall i, j :: 0 <= i < |t.sellers| && 0 <= j < |t.hsCodes| ==>
              t.cells[i][j] == PairTotal(view, t.sellers[i], t.hsCodes[j])
  {
    var paired := Where(view, Paired());
    var sellers := SortedKeys(paired, Seller);
    var codes := SortedKeys(paired, HsCode);
    PairedOccurs(view, paired);
    CrossTab(sellers, codes, PivotCells(view, sellers, codes))
  }

  /** The pivot's value matrix: one row per seller, one column per HS code. */
  function PivotCells(view: seq<Record>, sellers: seq<string>, codes: seq<string>): (cells: seq<seq<real>>)
    ensures |cells| == |sellers|
    ensures forall i :: 0 <= i < |sellers| ==> |cells[i]| == |codes|
    ensures forall i, j :: 0 <= i < |sellers| && 0 <= j < |codes| ==> cells[i][j] == PairTotal(view, sellers[i], codes[j])
  {
    seq(|sellers|, i requires 0 <= i < |sellers| => GroupTotals(Group(view, Seller, sellers[i]), HsCode, codes, ValueUsd))
  }

  /** A label occurs among the paired rows exactly when some view row carries it together with the other label. */
  lemma PairedOccurs(view: seq<Record>, paired: seq<Record>)
    requires paired == Where(view, Paired())
    ensures forall s :: Occurs(paired, Seller, s) <==>
              exists i :: 0 <= i < |view| && view[i].seller == Some(s) && view[i].hsCode.Some?
    ensures forall c :: Occurs(paired, HsCode, c) <==>
              exists i :: 0 <= i < |view| && view[i].hsCode == Some(c) && view[i].seller.Some?
  {
    PairedSellers(view, paired);
    PairedCodes(view, paired);
  }

  lemma PairedSellers(view: seq<Record>, paired: seq<Record>)
    requires paired == Where(view, Paired())
    ensures forall s :: Occurs(paired, Seller, s) <==>
              exists i :: 0 <= i < |view| && view[i].seller == Some(s) && view[i].hsCode.Some?
  {
    forall s
      ensures Occurs(paired, Seller, s) <==>
              exists i :: 0 <= i < |view| && view[i].seller == Some(s) && view[i].hsCode.Some?
    {
      OccursWhere(view, Paired(), Seller, s);
      if exists i :: 0 <= i < |view| && view[i].seller == Some(s) && view[i].hsCode.Some? {
        var i :| 0 <= i < |view| && view[i].seller == Some(s) && view[i].hsCode.Some?;
        assert KeyOf(view[i], Seller) == Some(s) && Paired()(view[i]);
      }
      if Occurs(paired, Seller, s) {
        var i :| 0 <= i < |view| && KeyOf(view[i], Seller) == Some(s) && Paired()(view[i]);
        assert view[i].seller == Some(s) && view[i].hsCode.Some?;
      }
    }
  }

  lemma PairedCodes(view: seq<Record>, paired: seq<Record>)
    requires paired == Where(view, Paired())
    ensures forall c :: Occurs(paired, HsCode, c) <==>
              exists i :: 0 <= i < |view| && view[i].hsCode == Some(c) && view[i].seller.Some?
  {
    forall c
      ensures Occurs(paired, HsCode, c) <==>
              exists i :: 0 <= i < |view| && view[i].hsCode == Some(c) && view[i].seller.Some?
    {
      OccursWhere(view, Paired(), HsCode, c);
      if exists i :: 0 <= i < |view| && view[i].hsCode == Some(c) && view[i].seller.Some? {
        var i :| 0 <= i < |view| && view[i].hsCode == Some(c) && view[i].seller.Some?;
        assert KeyOf(view[i], HsCode) == Some(c) && Paired()(view[i]);
      }
      if Occurs(paired, HsCode, c) {
        var i :| 0 <= i < |view| && KeyOf(view[i], HsCode) == Some(c) && Paired()(view[i]);
        assert view[i].hsCode == Some(c) && view[i].seller.Some?;
      }
    }
  }

  /** A (seller, HS code) pair with no view row totals 0, not NaN. */
  lemma PivotAbsentPairIsZero(view: seq<Record>, seller: string, code: string)
    ensures (forall x :: x in view ==> !(x.seller == Some(seller) && x.hsCode == Some(code))) ==>
              PairTotal(view, seller, code) == 0.0
  {
    if forall x :: x in view ==> !(x.seller == Some(seller) && x.hsCode == Some(code)) {
      var g := Group(view, Seller, seller);
      WhereNoneKept(g, HasKey(HsCode, code));
    }
  }

  /**
   A pivot row adds up to the seller's VALUE(USD) over its rows that have an
   HS code: every such row falls in exactly one column.
   */
  lemma PivotRowSum(view: seq<Record>, i: nat)
    requires i < |Pivot(view).sellers|
    ensures Sum(Pivot(view).cells[i]) == Total(Where(Group(view, Seller, Pivot(view).sellers[i]), Keyed(HsCode)), ValueUsd)
  {
    var t := Pivot(view);
    var g := Group(view, Seller, t.sellers[i]);
    AscendingIsDistinct(t.hsCodes);
    GroupTotalsAddUp(g, HsCode, t.hsCodes, ValueUsd);
    forall x | x in g
      ensures KeyIn(HsCode, t.hsCodes)(x) == Keyed(HsCode)(x)
    {
      if x.hsCode.Some? {
        var k :| 0 <= k < |view| && view[k] == x;
      }
    }
    WhereAgree(g, KeyIn(HsCode, t.hsCodes), Keyed(HsCode));
  }
}

=== FILE: seqs.dfy ===
/**
 Boolean-mask selection over a table, `df[mask]` in pandas: the rows whose
 mask entry is true, in their original order.
 */
module Seqs {

  /** The rows of `s` that satisfy `p`, in their original order. */
  function Where<T(==)>(s: seq<T>, p: T -> bool): (r: seq<T>)
    ensures |r| <= |s|
    ensures forall i :: 0 <= i < |r| ==> r[i] in s && p(r[i])
    ensures forall i :: 0 <= i < |s| && p(s[i]) ==> s[i] in r
  {
    if |s| == 0 then []
    else if p(s[0]) then [s[0]] + Where(s[1..], p)
    else Where(s[1..], p)
  }

  lemma {:induction false} WhereAppend<T>(a: seq<T>, b: seq<T>, p: T -> bool)
    ensures Where(a + b, p) == Where(a, p) + Where(b, p)
  {
    if |a| == 0 {
      assert a + b == b;
    } else {
      assert (a + b)[0] == a[0];
      assert (a + b)[1..] == a[1..] + b;
      WhereAppend(a[1..], b, p);
    }
  }

  /**
   The positions `Where` keeps: strictly increasing, the i-th kept row is
   the row at the i-th position, and a position is kept exactly when its row
   satisfies `p`. This is the order-preserving-subsequence view of a mask.
   */
  function KeptIndices<T(==)>(s: seq<T>, p: T -> bool): (idx: seq<nat>)
    ensures |idx| == |Where(s, p)|
    ensures forall k :: 0 <= k < |idx| ==> idx[k] < |s| && Where(s, p)[k] == s[idx[k]]
    ensures forall k, l :: 0 <= k < l < |idx| ==> idx[k] < idx[l]
    ensures forall i :: 0 <= i < |s| ==> (i in idx <==> p(s[i]))
    decreases |s|
  {
    if |s| == 0 then []
    else
      var front := KeptIndices(s[..|s| - 1], p);
      var idx := front + (if p(s[|s| - 1]) then [|s| - 1] else []);
      KeptIndicesStep(s, p, front, idx);
      idx
  }

  /** One step of `KeptIndices`: extending the positions of a prefix by the last row. */
  lemma KeptIndicesStep<T>(s: seq<T>, p: T -> bool, front: seq<nat>, idx: seq<nat>)
    requires |s| > 0
    requires |front| == |Where(s[..|s| - 1], p)|
    requires forall k :: 0 <= k < |front| ==> front[k] < |s| - 1 && Where(s[..|s| - 1], p)[k] == s[front[k]]
    requires forall k, l :: 0 <= k < l < |front| ==> front[k] < front[l]
    requires forall i :: 0 <= i < |s| - 1 ==> (i in front <==> p(s[i]))
    requires idx == front + (if p(s[|s| - 1]) then [|s| - 1] else [])
    ensures |idx| == |Where(s, p)|
    ensures forall k :: 0 <= k < |idx| ==> idx[k] < |s| && Where(s, p)[k] == s[idx[k]]
    ensures forall k, l :: 0 <= k < l < |idx| ==> idx[k] < idx[l]
    ensures forall i :: 0 <= i < |s| ==> (i in idx <==> p(s[i]))
  {
    var init, last := s[..|s| - 1], s[|s| - 1];
    assert s == init + [last];
    WhereAppend(init, [last], p);
    assert Where([last], p) == if p(last) then [last] else [];
    var w := Where(s, p);
    assert w == Where(init, p) + Where([last], p);
    forall k | 0 <= k < |idx|
      ensures idx[k] < |s| && w[k] == s[idx[k]]
    {
      if k < |front| {
        assert w[k] == Where(init, p)[k];
      }
    }
    assert |s| - 1 !in front;
  }

  /** `sub` is `s` with some rows left out: row k of `sub` is row `idx[k]` of `s`, positions increasing. */
  ghost predicate Embeds<T>(sub: seq<T>, s: seq<T>, idx: seq<nat>)
  {
    && |idx| == |sub|
    && (forall k :: 0 <= k < |idx| ==> idx[k] < |s| && sub[k] == s[idx[k]])
    && (forall k, l :: 0 <= k < l < |idx| ==> idx[k] < idx[l])
  }

  /** A row is kept exactly when it is in the input and satisfies the predicate. */
  lemma WhereAllKept<T>(s: seq<T>, p: T -> bool)
    requires forall x :: x in s ==> p(x)
    ensures Where(s, p) == s
  {
    if |s| > 0 {
      assert forall x :: x in s[1..] ==> x in s;
      WhereAllKept(s[1..], p);
    }
  }

  lemma WhereNoneKept<T>(s: seq<T>, p: T -> bool)
    requires forall x :: x in s ==> !p(x)
    ensures Where(s, p) == []
  {
    if |Where(s, p)| > 0 {
      assert Where(s, p)[0] in Where(s, p);
    }
  }

  /** Selecting twice with the same predicate selects nothing new. */
  lemma WhereIdempotent<T>(s: seq<T>, p: T -> bool)
    ensures Where(Where(s, p), p) == Where(s, p)
  {
    WhereAllKept(Where(s, p), p);
  }

  /** Two predicates that agree on the rows of `s` select the same rows. */
  lemma {:induction false} WhereAgree<T>(s: seq<T>, p: T -> bool, q: T -> bool)
    requires forall x :: x in s ==> p(x) == q(x)
    ensures Where(s, p) == Where(s, q)
  {
    if |s| > 0 {
      assert forall x :: x in s[1..] ==> x in s;
      WhereAgree(s[1..], p, q);
    }
  }

  /** Selecting by `p` and then by `q` is selecting by their conjunction `pq`. */
  lemma {:induction false} WhereWhere<T>(s: seq<T>, p: T -> bool, q: T -> bool, pq: T -> bool)
    requires forall x :: x in s ==> pq(x) == (p(x) && q(x))
    ensures Where(Where(s, p), q) == Where(s, pq)
  {
    if |s| > 0 {
      assert forall x :: x in s[1..] ==> x in s;
      WhereWhere(s[1..], p, q, pq);
    }
  }
}

=== FILE: table.dfy ===
/**
 The normalised trade table: one `Record` per spreadsheet row, with the
 columns the dashboard reads, and pandas' NaN-skipping `sum` and `mean` over
 them.
 */
module Table {
  import opened Values
  import opened Seqs

  /**
   One row after loading. Every field may be absent (NaN, NaT or a null
   label); `asp` is the derived ASP_COMPUTED column.
   */
  datatype Record = Record(
    date: Option<Date>,
    buyer: Option<string>,
    hsCode: Option<string>,
    seller: Option<string>,
    industry: Option<string>,
    quantity: Option<real>,
    value: Option<real>,
    unitPrice: Option<real>,
    asp: Option<real>)

  /** The label columns the reports group or filter by. */
  datatype Dim = Buyer | HsCode | Seller | Industry

  function KeyOf(r: Record, d: Dim): Option<string>
  {
    match d
    case Buyer => r.buyer
    case HsCode => r.hsCode
    case Seller => r.seller
    case Industry => r.industry
  }

  /** The numeric columns the reports sum or average. */
  datatype Column = Quantity | ValueUsd | AspComputed

  function CellOf(r: Record, c: Column): Option<real>
  {
    match c
    case Quantity => r.quantity
    case ValueUsd => r.value
    case AspComputed => r.asp
  }

  /**
   The ASP_COMPUTED rule: the unit price when there is one; otherwise value
   over quantity when both are present and the quantity is non-zero;
   otherwise absent.
   */
  predicate AspConsistent(r: Record)
  {
    && (r.unitPrice.Some? ==> r.asp == r.unitPrice)
    && (r.unitPrice.None? && r.quantity.Some? && r.value.Some? && r.quantity.value != 0.0 ==>
          r.asp == Some(r.value.value / r.quantity.value))
    && (r.unitPrice.None? && (r.quantity.None? || r.value.None? || r.quantity.value == 0.0) ==>
          r.asp.None?)
  }

  /** pandas `sum()`: absent cells are skipped, so an all-absent column sums to 0. */
  function Total(rows: seq<Record>, c: Column): real
  {
    if |rows| == 0 then 0.0
    else (match CellOf(rows[0], c) case Some(x) => x case None => 0.0) + Total(rows[1..], c)
  }

  /** pandas `count()`: the number of present cells. */
  function Count(rows: seq<Record>, c: Column): (n: nat)
    ensures n <= |rows|
    ensures n == 0 <==> forall i :: 0 <= i < |rows| ==> CellOf(rows[i], c).None?
  {
    if |rows| == 0 then 0
    else (if CellOf(rows[0], c).Some? then 1 else 0) + Count(rows[1..], c)
  }

  /** A total only sees present cells: with no present cell it is 0. */
  lemma {:induction false} TotalOfAbsent(rows: seq<Record>, c: Column)
    requires Count(rows, c) == 0
    ensures Total(rows, c) == 0.0
  {
    if |rows| > 0 {
      TotalOfAbsent(rows[1..], c);
    }
  }

  /**
   pandas `mean()`: the average of the present cells, absent cells excluded
   from both the sum and the divisor; undefined when no cell is present.
   */
  function Mean(rows: seq<Record>, c: Column): (m: Option<real>)
    ensures m.None? <==> forall i :: 0 <= i < |rows| ==> CellOf(rows[i], c).None?
    ensures m.Some? ==> m.value * (Count(rows, c) as real) == Total(rows, c)
  {
    var n := Count(rows, c);
    if n == 0 then None else Some(Total(rows, c) / (n as real))
  }

  lemma {:induction false} TotalAppend(a: seq<Record>, b: seq<Record>, c: Column)
    ensures Total(a + b, c) == Total(a, c) + Total(b, c)
  {
    if |a| == 0 {
      assert a + b == b;
    } else {
      assert (a + b)[0] == a[0];
      assert (a + b)[1..] == a[1..] + b;
      TotalAppend(a[1..], b, c);
    }
  }

  /**
   Splitting a selection into two disjoint parts splits its total: when
   `pq` holds of a row exactly when one of `p`, `q` does (and never both),
   the total over `pq` is the total over `p` plus the total over `q`.
   */
  lemma {:induction false} TotalSplit(rows: seq<Record>, c: Column, pq: Record -> bool, p: Record -> bool, q: Record -> bool)
    requires forall x :: x in rows ==> pq(x) == (p(x) || q(x))
    requires forall x :: x in rows ==> !(p(x) && q(x))
    ensures Total(Where(rows, pq), c) == Total(Where(rows, p), c) + Total(Where(rows, q), c)
  {
    if |rows| > 0 {
      var x, rest := rows[0], rows[1..];
      assert x in rows;
      assert forall y :: y in rest ==> y in rows;
      TotalSplit(rest, c, pq, p, q);
      TotalKept(x, rest, c, pq);
      TotalKept(x, rest, c, p);
      TotalKept(x, rest, c, q);
    }
  }

  /** Selecting from a non-empty table: the first row adds its cell when it is kept. */
  lemma TotalKept(x: Record, rest: seq<Record>, c: Column, p: Record -> bool)
    ensures Total(Where([x] + rest, p), c)
         == (if p(x) then (match CellOf(x, c) case Some(v) => v case None => 0.0) else 0.0) + Total(Where(rest, p), c)
  {
    assert ([x] + rest)[0] == x && ([x] + rest)[1..] == rest;
    if p(x) {
      assert ([x] + Where(rest, p))[1..] == Where(rest, p);
    }
  }

  /** Rows whose `d` label is `k`: one pandas groupby group. */
  function HasKey(d: Dim, k: string): Record -> bool
  {
    x => KeyOf(x, d) == Some(k)
  }

  /** Rows whose `d` label is one of `ks`. */
  function KeyIn(d: Dim, ks: seq<string>): Record -> bool
  {
    x => KeyOf(x, d).Some? && KeyOf(x, d).value in ks
  }

  /** Rows with a non-null `d` label: the rows a pandas groupby keeps. */
  function Keyed(d: Dim): Record -> bool
  {
    x => KeyOf(x, d).Some?
  }

  /** Some row of `rows` carries label `k` in column `d`. */
  predicate Occurs(rows: seq<Record>, d: Dim, k: string)
  {
    exists i :: 0 <= i < |rows| && KeyOf(rows[i], d) == Some(k)
  }

  /**
   The group keys of a pandas groupby on `d`: each non-null label of the
   column exactly once, in ascending order.
   */
  function SortedKeys(rows: seq<Record>, d: Dim): (ks: seq<string>)
    ensures Ascending(ks)
    ensures forall k :: k in ks <==> Occurs(rows, d, k)
  {
    if |rows| == 0 then []
    else
      var rest := SortedKeys(rows[1..], d);
      assert forall k :: Occurs(rows, d, k) <==> KeyOf(rows[0], d) == Some(k) || Occurs(rows[1..], d, k) by {
        forall k
          ensures Occurs(rows, d, k) <==> KeyOf(rows[0], d) == Some(k) || Occurs(rows[1..], d, k)
        {
          if Occurs(rows, d, k) && KeyOf(rows[0], d) != Some(k) {
            var i :| 0 <= i < |rows| && KeyOf(rows[i], d) == Some(k);
            assert KeyOf(rows[1..][i - 1], d) == Some(k);
          }
          if Occurs(rows[1..], d, k) {
            var i :| 0 <= i < |rows[1..]| && KeyOf(rows[1..][i], d) == Some(k);
            assert KeyOf(rows[i + 1], d) == Some(k);
          }
        }
      }
      match KeyOf(rows[0], d)
      case Some(k) => InsertLabel(k, rest)
      case None => rest
  }

  /** The plain sum of a list of amounts. */
  function Sum(xs: seq<real>): real
  {
    if |xs| == 0 then 0.0 else xs[0] + Sum(xs[1..])
  }

  /** For each label of `ks`, the total of column `c` over the rows with that label. */
  function GroupTotals(rows: seq<Record>, d: Dim, ks: seq<string>, c: Column): (r: seq<real>)
    ensures |r| == |ks|
    ensures forall j :: 0 <= j < |ks| ==> r[j] == Total(Where(rows, HasKey(d, ks[j])), c)
  {
    if |ks| == 0 then []
    else [Total(Where(rows, HasKey(d, ks[0])), c)] + GroupTotals(rows, d, ks[1..], c)
  }

  /**
   Per-group totals add up: over distinct labels `ks`, the group totals sum
   to the total over all rows whose label is one of `ks`. Every row is
   counted in exactly one group.
   */
  lemma {:induction false} GroupTotalsAddUp(rows: seq<Record>, d: Dim, ks: seq<string>, c: Column)
    requires Distinct(ks)
    ensures Sum(GroupTotals(rows, d, ks, c)) == Total(Where(rows, KeyIn(d, ks)), c)
  {
    if |ks| == 0 {
      WhereNoneKept(rows, KeyIn(d, ks));
    } else {
      var rest := ks[1..];
      GroupTotalsAddUp(rows, d, rest, c);
      assert GroupTotals(rows, d, ks, c) == [Total(Where(rows, HasKey(d, ks[0])), c)] + GroupTotals(rows, d, rest, c);
      KeyInSplits(d, ks);
      TotalSplit(rows, c, KeyIn(d, ks), HasKey(d, ks[0]), KeyIn(d, rest));
    }
  }

  /** A row's label is in `ks` exactly when it is the first label or one of the rest, and never both. */
  lemma KeyInSplits(d: Dim, ks: seq<string>)
    requires |ks| > 0
    requires Distinct(ks)
    ensures forall x :: KeyIn(d, ks)(x) == (HasKey(d, ks[0])(x) || KeyIn(d, ks[1..])(x))
    ensures forall x :: !(HasKey(d, ks[0])(x) && KeyIn(d, ks[1..])(x))
  {
    assert ks == [ks[0]] + ks[1..];
    assert ks[0] !in ks[1..];
  }

  /**
   With `ks` the groupby keys of `rows`, the rows whose label is in `ks`
   are exactly the rows with a non-null label.
   */
  lemma KeysCoverKeyed(rows: seq<Record>, d: Dim)
    ensures Where(rows, KeyIn(d, SortedKeys(rows, d))) == Where(rows, Keyed(d))
  {
    var ks := SortedKeys(rows, d);
    forall x | x in rows
      ensures KeyIn(d, ks)(x) == Keyed(d)(x)
    {
      if KeyOf(x, d).Some? {
        var i :| 0 <= i < |rows| && rows[i] == x;
        assert Occurs(rows, d, KeyOf(x, d).value);
      }
    }
    WhereAgree(rows, KeyIn(d, ks), Keyed(d));
  }

  /** A label occurs among the selected rows exactly when some selected row of the input carries it. */
  lemma OccursWhere(rows: seq<Record>, p: Record -> bool, d: Dim, k: string)
    ensures Occurs(Where(rows, p), d, k) <==> exists i :: 0 <= i < |rows| && KeyOf(rows[i], d) == Some(k) && p(rows[i])
  {
    if Occurs(Where(rows, p), d, k) {
      OccursWhereSound(rows, p, d, k);
    }
    if exists i :: 0 <= i < |rows| && KeyOf(rows[i], d) == Some(k) && p(rows[i]) {
      var i :| 0 <= i < |rows| && KeyOf(rows[i], d) == Some(k) && p(rows[i]);
      OccursWhereComplete(rows, p, d, i);
    }
  }

  lemma OccursWhereSound(rows: seq<Record>, p: Record -> bool, d: Dim, k: string)
    requires Occurs(Where(rows, p), d, k)
    ensures exists i :: 0 <= i < |rows| && KeyOf(rows[i], d) == Some(k) && p(rows[i])
  {
    var w := Where(rows, p);
    var j :| 0 <= j < |w| && KeyOf(w[j], d) == Some(k);
    assert w[j] in rows && p(w[j]);
    var i :| 0 <= i < |rows| && rows[i] == w[j];
    assert KeyOf(rows[i], d) == Some(k) && p(rows[i]);
  }

  lemma OccursWhereComplete(rows: seq<Record>, p: Record -> bool, d: Dim, i: nat)
    requires i < |rows| && KeyOf(rows[i], d).Some? && p(rows[i])
    ensures Occurs(Where(rows, p), d, KeyOf(rows[i], d).value)
  {
    var w := Where(rows, p);
    assert rows[i] in w;
    var j :| 0 <= j < |w| && w[j] == rows[i];
    assert KeyOf(w[j], d) == KeyOf(rows[i], d);
  }
}

=== FILE: text.dfy ===
/**
 The two string clean-ups the loader applies: trimming header labels
 (Python `str.strip()` with no argument) and removing every `$` and `,` from
 a VALUE(USD) text cell (the regex replacement `[$,]` -> "").
 */
module Text {
  import opened Seqs

  /** The characters Python's `str.isspace()` accepts, which `strip()` removes. */
  predicate IsSpace(c: char)
  {
    || c == ' ' || c == '\t' || c == '\n' || c == '\r' || c == '\U{000B}' || c == '\U{000C}'
    || ('\U{001C}' <= c <= '\U{001F}') || c == '\U{0085}' || c == '\U{00A0}' || c == '\U{1680}'
    || ('\U{2000}' <= c <= '\U{200A}') || c == '\U{2028}' || c == '\U{2029}'
    || c == '\U{202F}' || c == '\U{205F}' || c == '\U{3000}'
  }

  predicate AllSpace(s: string)
  {
    forall i :: 0 <= i < |s| ==> IsSpace(s[i])
  }

  /** The length of the leading whitespace run. */
  function LeadingSpaces(s: string): (n: nat)
    ensures n <= |s|
    ensures forall k :: 0 <= k < n ==> IsSpace(s[k])
    ensures n < |s| ==> !IsSpace(s[n])
  {
    if |s| == 0 || !IsSpace(s[0]) then 0
    else
      var n := LeadingSpaces(s[1..]);
      assert forall k :: 0 < k < n + 1 ==> s[k] == s[1..][k - 1];
      n + 1
  }

  /** The length of the trailing whitespace run. */
  function TrailingSpaces(s: string): (n: nat)
    ensures n <= |s|
    ensures forall k :: |s| - n <= k < |s| ==> IsSpace(s[k])
    ensures n < |s| ==> !IsSpace(s[|s| - n - 1])
  {
    if |s| == 0 || !IsSpace(s[|s| - 1]) then 0
    else
      var n := TrailingSpaces(s[..|s| - 1]);
      assert forall k :: 0 <= k < |s| - 1 ==> s[k] == s[..|s| - 1][k];
      n + 1
  }

  /**
   Python `str.strip()`: the result is the input with a (possibly empty)
   run of whitespace cut from each end, and neither end of the result is
   whitespace.
   */
  function Trim(s: string): (r: string)
    ensures exists i, j :: 0 <= i <= j <= |s| && AllSpace(s[..i]) && AllSpace(s[j..]) && r == s[i..j]
    ensures |r| > 0 ==> !IsSpace(r[0]) && !IsSpace(r[|r| - 1])
  {
    var i := LeadingSpaces(s);
    var j := |s| - TrailingSpaces(s[i..]);
    TrimBounds(s, i, j);
    s[i..j]
  }

  /** The cut points `Trim` uses: whitespace-only ends, non-whitespace at the edges of what is kept. */
  lemma TrimBounds(s: string, i: nat, j: nat)
    requires i == LeadingSpaces(s) && j == |s| - TrailingSpaces(s[i..])
    ensures 0 <= i <= j <= |s| && AllSpace(s[..i]) && AllSpace(s[j..])
    ensures i < j ==> !IsSpace(s[i]) && !IsSpace(s[j - 1])
  {
    LeadingRun(s, i);
    TrailingRun(s, i, j);
  }

  lemma LeadingRun(s: string, i: nat)
    requires i == LeadingSpaces(s)
    ensures AllSpace(s[..i])
  {
    forall k | 0 <= k < i
      ensures IsSpace(s[..i][k])
    {
      assert s[..i][k] == s[k];
    }
  }

  lemma TrailingRun(s: string, i: nat, j: nat)
    requires i <= |s|
    requires j == |s| - TrailingSpaces(s[i..])
    ensures i <= j <= |s| && AllSpace(s[j..])
    ensures i < j ==> !IsSpace(s[j - 1])
  {
    var t := s[i..];
    var n := TrailingSpaces(t);
    forall k | 0 <= k < n
      ensures IsSpace(s[j..][k])
    {
      assert s[j..][k] == t[|t| - n + k];
    }
    if i < j {
      assert s[j - 1] == t[|t| - n - 1];
    }
  }

  /** Trimming a string whose ends are not whitespace leaves it unchanged. */
  lemma TrimKeepsClean(s: string)
    requires |s| > 0 ==> !IsSpace(s[0]) && !IsSpace(s[|s| - 1])
    ensures Trim(s) == s
  {
    assert LeadingSpaces(s) == 0;
    assert s[0..] == s;
  }

  lemma TrimIdempotent(s: string)
    ensures Trim(Trim(s)) == Trim(s)
  {
    TrimKeepsClean(Trim(s));
  }

  /** A character the VALUE(USD) clean-up removes. */
  predicate IsCurrencyMark(c: char)
  {
    c == '$' || c == ','
  }

  /** The VALUE(USD) text clean-up: every `$` and `,` is removed. */
  function StripCurrency(s: string): (r: string)
    ensures |r| <= |s|
    ensures forall i :: 0 <= i < |r| ==> !IsCurrencyMark(r[i])
    ensures forall c :: c in r <==> c in s && !IsCurrencyMark(c)
  {
    if |s| == 0 then ""
    else if IsCurrencyMark(s[0]) then StripCurrency(s[1..])
    else [s[0]] + StripCurrency(s[1..])
  }

  /**
   Stripping works character by character: the kept characters of a
   concatenation are the kept characters of each part, in order.
   */
  lemma {:induction false} StripCurrencyAppend(a: string, b: string)
    ensures StripCurrency(a + b) == StripCurrency(a) + StripCurrency(b)
  {
    if |a| == 0 {
      assert a + b == b;
    } else {
      assert (a + b)[1..] == a[1..] + b;
      StripCurrencyAppend(a[1..], b);
    }
  }

  /** A string with neither `$` nor `,` is left unchanged. */
  lemma {:induction false} StripCurrencyKeepsClean(s: string)
    requires forall i :: 0 <= i < |s| ==> !IsCurrencyMark(s[i])
    ensures StripCurrency(s) == s
  {
    if |s| > 0 {
      StripCurrencyKeepsClean(s[1..]);
      assert s == [s[0]] + s[1..];
    }
  }

  lemma StripCurrencyIdempotent(s: string)
    ensures StripCurrency(StripCurrency(s)) == StripCurrency(s)
  {
    StripCurrencyKeepsClean(StripCurrency(s));
  }

  /** The characters the VALUE(USD) clean-up keeps. */
  function KeepsChar(): char -> bool
  {
    c => !IsCurrencyMark(c)
  }

  /** Stripping is a character mask: the result is exactly the non-mark characters, in order. */
  lemma {:induction false} StripCurrencyIsWhere(s: string)
    ensures StripCurrency(s) == Where(s, KeepsChar())
  {
    if |s| > 0 {
      StripCurrencyIsWhere(s[1..]);
    }
  }

  /**
   The kept characters appear in their original order: the result embeds
   into the input at increasing positions, and a position is kept exactly
   when its character is neither `$` nor `,`.
   */
  lemma StripCurrencyKeepsOrder(s: string)
    ensures exists idx :: Embeds(StripCurrency(s), s, idx)
                          && forall i :: 0 <= i < |s| ==> (i in idx <==> !IsCurrencyMark(s[i]))
  {
    StripCurrencyIsWhere(s);
    var idx := KeptIndices(s, KeepsChar());
    assert Embeds(StripCurrency(s), s, idx);
  }
}

=== FILE: values.dfy ===
/**
 Basic value types shared by the whole dashboard model: optional values
 (pandas NaN / NaT / a null label), results with an error, calendar days,
 and the ordering Python uses for `str` labels.
 */
module Values {

  /** A cell value that may be absent: `None` stands for NaN, NaT or a null label. */
  datatype Option<+T> = None | Some(value: T)

  /** The outcome of a step that can stop the script with an exception. */
  datatype Result<+T, +E> = Ok(value: T) | Err(error: E)

  /** A calendar date, as a day number: a later day has a larger number. */
  type Date = int

  /** Python's `<` on `str`: lexicographic by code point, a proper prefix first. */
  predicate StrLt(a: string, b: string)
  {
    if |a| == 0 then |b| > 0
    else if |b| == 0 then false
    else a[0] < b[0] || (a[0] == b[0] && StrLt(a[1..], b[1..]))
  }

  lemma {:induction false} StrLtIrreflexive(a: string)
    ensures !StrLt(a, a)
  {
    if |a| > 0 {
      StrLtIrreflexive(a[1..]);
    }
  }

  lemma {:induction false} StrLtTransitive(a: string, b: string, c: string)
    requires StrLt(a, b) && StrLt(b, c)
    ensures StrLt(a, c)
  {
    if |a| > 0 && |b| > 0 && |c| > 0 && a[0] == b[0] && b[0] == c[0] {
      StrLtTransitive(a[1..], b[1..], c[1..]);
    }
  }

  lemma {:induction false} StrLtTotal(a: string, b: string)
    ensures a == b || StrLt(a, b) || StrLt(b, a)
  {
    if |a| > 0 && |b| > 0 && a[0] == b[0] {
      StrLtTotal(a[1..], b[1..]);
      assert a == [a[0]] + a[1..];
      assert b == [b[0]] + b[1..];
    }
  }

  /** No element occurs twice. */
  predicate Distinct<T(==)>(s: seq<T>)
  {
    forall i, j :: 0 <= i < j < |s| ==> s[i] != s[j]
  }

  /** Labels in strictly ascending Python order (so also free of duplicates). */
  predicate Ascending(ks: seq<string>)
  {
    forall i, j :: 0 <= i < j < |ks| ==> StrLt(ks[i], ks[j])
  }

  lemma AscendingIsDistinct(ks: seq<string>)
    requires Ascending(ks)
    ensures Distinct(ks)
  {
    forall i, j | 0 <= i < j < |ks|
      ensures ks[i] != ks[j]
    {
      StrLtIrreflexive(ks[i]);
    }
  }

  /**
   Inserts label `k` into the ascending sequence `ks`, as the set of keys a
   pandas groupby collects: the result is ascending and holds exactly the
   labels of `ks` and `k`.
   */
  function InsertLabel(k: string, ks: seq<string>): (r: seq<string>)
    requires Ascending(ks)
    ensures Ascending(r)
    ensures forall x :: x in r <==> x == k || x in ks
  {
    if |ks| == 0 then [k]
    else if k == ks[0] then ks
    else if StrLt(k, ks[0]) then
      LessThanHeadIsLessThanAll(k, ks);
      [k] + ks
    else
      StrLtTotal(k, ks[0]);
      var rest := InsertLabel(k, ks[1..]);
      assert forall x :: x in rest ==> StrLt(ks[0], x);
      [ks[0]] + rest
  }

  lemma LessThanHeadIsLessThanAll(k: string, ks: seq<string>)
    requires Ascending(ks) && |ks| > 0 && StrLt(k, ks[0])
    ensures forall j :: 0 <= j < |ks| ==> StrLt(k, ks[j])
  {
    forall j | 0 < j < |ks|
      ensures StrLt(k, ks[j])
    {
      StrLtTransitive(k, ks[0], ks[j]);
    }
  }
}
